=== FILE: README.md ===
# Stream buffer and TCP connection of a reactor network library

This project models two parts of a single-threaded reactor network library, as pure Dafny definitions.

The first part is the byte **stream buffer** (`main/net/Buffer.h`). It is one contiguous store with a reader cursor and a writer cursor. A cheap-prepend area of 8 bytes sits in front of the unread bytes. Writes append, moving the writer cursor forward; reads retrieve, moving the reader cursor forward. When space runs out, `makeSpace` either grows the store or moves the unread bytes down. Fixed-width integers are appended, peeked, read and prepended in network byte order.

The second part is the **TCP connection** (`main/net/TcpConnection.cc`): its state machine Connecting → Connected → Disconnecting → Disconnected, and its send and receive policy:
- a direct write when nothing is queued, otherwise queueing;
- the high-water-mark and write-complete notices;
- half-close deferred until the queue drains;
- force-close;
- the close sequence run by a zero-length read, a hang-up or a force-close.

Only the in-loop bodies are modelled. A cross-thread call is the same body run later.

Files:

- `byte_order.dfy` (module `ByteOrder`): big-endian, two's-complement encoding of 1-, 2-, 4- and 8-byte integers, with both round-trip lemmas.
- `buffer.dfy` (module `NetBuffer`): `Buffer(storage, readerIndex, writerIndex)` with the invariant `readerIndex <= writerIndex <= |storage|`. `Peek(b)` is the unread slice; every operation is stated by what it does to `Peek`.
- `connection.dfy` (module `TcpConnection`): a `Connection` value holds the state, the input and output buffers, the channel's interest flags, the high-water mark, and whether the two optional callbacks are set. Each handler returns the next value.
  - What the connection does to its collaborators is appended to a `trace` of effects. That covers callbacks run or scheduled, `shutdownWrite`, and `disableAll`.
  - What the socket answers (`write`, `readFd`) is a parameter.
  - `Step` and `Run` replay any sequence of entry points, so properties about whole runs can be stated. The entry points are the public operations, the queued force-close task, and the four channel callbacks the constructor installs (`TcpConnection.cc:47-54`): read, write, close (a hang-up, straight to `handleClose`) and error.

Reading notes. Several lines do not compile as written. The model follows their evident meaning:
- `Buffer.h:22` spells `kCHeapPrepend`.
- `Buffer.h:43` reads `buffer.size()` for `buffer_.size()`; `Buffer.h:46` reads `readerIndex` for `readerIndex_`.
- `Buffer.h:67/75` call `reabldeBytes()` for `readableBytes()`.
- `Buffer.h:177` reads `writeIndex_` for `writerIndex_` and has a stray `a`.
- `Buffer.h:194/201/208` convert `host64/32/16` instead of `x`.
- `Buffer.h:310` casts `static_cast<const char*>(char)`, losing the data pointer; the model copies `data`.
- `Buffer.h:341` calls `prependBytes()` for `prependableBytes()`.
- `TcpConnection.cc:181` spells `outoutBuffer_`; `TcpConnection.cc:184` spells `enablWriting`.
- `TcpConnection.cc:215` binds `forceInLoop`, meaning `forceCloseInLoop`.
- `TcpConnection.cc:223` sets `kDisconnection`, read as `kDisconnecting`.
- `TcpConnection.cc:331` compares `state_ == writeCompleteCallback_`, read as "the callback is set".
- `TcpConnection.cc:336` spells `kDiconnecting`.
- `TcpConnection.cc:359` uses `saveErrno` for the declared `savedErrno`.

`peekIntN` converts with `htobe` where `betoh` is meant. The two are the same permutation, so the model decodes big-endian bytes.

Two behaviours of the code a reader might not expect:
- **Drain after shutdown:** the write that drains the queue after `shutdown()` only shuts the write half down (`TcpConnection.cc:336-339`). The state stays Disconnecting; `ShutdownWaitsForDrain` proves this.
- **EPIPE/ECONNRESET:** after one of these on the direct write, nothing is queued at all (`TcpConnection.cc:161-170`).

## Model

| member | source | states |
|---|---|---|
| ByteOrder.EncodeInt | main/net/Buffer.h:191-215 | the stored form of a signed value has exactly `width` bytes, and its first byte has the top bit set exactly when the value is negative |
| ByteOrder.DecodeInt | main/net/Buffer.h:249-280 | the value read from `width` bytes lies in the signed range of that width, and is negative exactly when the first byte's top bit is set |
| ByteOrder.FromToBigEndian | main/net/Buffer.h:191-196 | decoding the big-endian encoding of an unsigned value gives the value back |
| ByteOrder.ToFromBigEndian | main/net/Buffer.h:251-257 | every byte string is the big-endian encoding of its own value |
| ByteOrder.TopByteSign | main/net/Buffer.h:249-280 | the leading byte is at least 128 exactly when the unsigned value is in the upper half of its range |
| ByteOrder.DecodeEncodeInt | main/net/Buffer.h:191-280 | peeking what was appended or prepended yields the same signed value |
| ByteOrder.EncodeDecodeInt | main/net/Buffer.h:249-280 | every `width`-byte string is the stored form of the value peeked from it |
| ByteOrder.EncodeExamples | main/net/Buffer.h:198-210 | 1 as int32_t is 00 00 00 01, -1 as int16_t is ff ff, 0x0102 as int16_t is 01 02 |
| NetBuffer.ReadableBytes | main/net/Buffer.h:39-49 | the readable count is the length of `Peek`, the slice `peek()` points at; with `WritableBytes` and `PrependableBytes`, prependable + readable + writable is the store size |
| NetBuffer.New | main/net/Buffer.h:21-29 | a new buffer has nothing readable, `initialSize` writable bytes and 8 prependable bytes |
| NetBuffer.RetrieveAll | main/net/Buffer.h:122-126 | nothing is left readable, both cursors are back at 8, and the store is untouched |
| NetBuffer.Retrieve | main/net/Buffer.h:82-93 | the unread bytes lose exactly their first `len`; a partial retrieve only advances the reader, and a full one resets both cursors |
| NetBuffer.RetrieveUntil | main/net/Buffer.h:95-100 | what stays unread is exactly the store from `end` to the writer |
| NetBuffer.RetrieveInt | main/net/Buffer.h:102-120 | exactly `width` bytes are dropped from the front of the unread bytes |
| NetBuffer.RetrieveAsString | main/net/Buffer.h:133-139 | the returned bytes followed by what stays unread are the old unread bytes, and `len` bytes are returned |
| NetBuffer.RetrieveAllAsString | main/net/Buffer.h:128-131 | everything unread is returned and the buffer is left empty with the reader at 8 |
| NetBuffer.MakeSpace | main/net/Buffer.h:339-358 | unread content is preserved and at least `len` bytes become writable. The store grows exactly when writable + prependable < len + 8. In the moving branch the reader was past 8 (the source's assert) and ends at 8 |
| NetBuffer.EnsureWritableBytes | main/net/Buffer.h:164-171 | at least `len` bytes are writable afterwards, unread content is unchanged, and nothing changes when there was room |
| NetBuffer.CopyToBeginWrite | main/net/Buffer.h:151-156 | the copied bytes land at the writer position, and the cursors and unread bytes stay put |
| NetBuffer.HasWritten | main/net/Buffer.h:179-183 | the next `len` stored bytes become the tail of the unread bytes |
| NetBuffer.Unwrite | main/net/Buffer.h:185-189 | the last `len` unread bytes are given back |
| NetBuffer.Append | main/net/Buffer.h:146-162 | the unread bytes become the old unread bytes followed by `data` |
| NetBuffer.Prepend | main/net/Buffer.h:306-312 | the unread bytes become `data` followed by the old unread bytes; the writer does not move |
| NetBuffer.AppendInt | main/net/Buffer.h:191-215 | `width` more readable bytes, the old content kept in front, and the new tail decodes to `x` |
| NetBuffer.PeekInt | main/net/Buffer.h:249-280 | the result is in the signed range, and its encoding is exactly the first `width` unread bytes |
| NetBuffer.ReadInt | main/net/Buffer.h:217-247 | the value's encoding is the first `width` unread bytes, and exactly those bytes are consumed |
| NetBuffer.PrependInt | main/net/Buffer.h:282-304 | `width` more readable bytes in front of the unchanged old content, and the front decodes to `x` |
| NetBuffer.SearchCRLF | main/net/Buffer.h:51-63 | the result is the first "\r\n" at or after `from`; none means there is none |
| NetBuffer.SearchByte | main/net/Buffer.h:65-77 | the result is the first occurrence of the byte at or after `from`; none means there is none |
| NetBuffer.FindCRLFFrom | main/net/Buffer.h:57-63 | the first "\r\n" of the unread bytes at or after `start`, or none when there is none |
| NetBuffer.FindCRLF | main/net/Buffer.h:51-55 | the first "\r\n" lying wholly inside the unread bytes, or none when there is none |
| NetBuffer.FindEOL | main/net/Buffer.h:65-69 | the first '\n' among the unread bytes, or none when there is none |
| NetBuffer.FindEOLFrom | main/net/Buffer.h:71-77 | as written: the first '\n' from the reader, whatever `start` is |
| NetBuffer.FindEOLAfter | main/net/Buffer.h:71-77 | as intended: the first '\n' at or after `start`, or none when there is none |
| NetBuffer.FindEOLFromIgnoresStart | main/net/Buffer.h:71-77 | on unread bytes "\n\n" with `start` at the second, the as-written search answers the first newline (before `start`) and the intended one the second |
| NetBuffer.AppendThenRetrieveAll | main/net/Buffer.h:128-156 | retrieving everything from an empty buffer after an append returns exactly the appended bytes and empties it |
| NetBuffer.AppendThenReadInt | main/net/Buffer.h:191-247 | `appendIntN(x)` then `readIntN` on an empty buffer yields `x` and leaves it empty with the reader at 8 |
| NetBuffer.PrependThenReadInt | main/net/Buffer.h:217-304 | `prependIntN(x)` then `readIntN` yields `x` and leaves exactly the previous unread bytes |
| NetBuffer.AppendThenUnwrite | main/net/Buffer.h:146-189 | `unwrite` of an append's length restores the previous unread bytes |
| NetBuffer.PingLineScenario | main/net/Buffer.h:51-55 | "PING\r\n" appended to a fresh buffer: its CR is found 4 bytes after the reader, and retrieving 6 bytes returns the line and empties the buffer |
| NetBuffer.Int32OneScenario | main/net/Buffer.h:198-233 | one int32_t 1 in a zero-capacity buffer: 4 readable bytes, peeked as 1, nothing left after retrieving it |
| TcpConnection.NewConnection | main/net/TcpConnection.cc:32-45 | a new connection is Connecting, reading, with no interest set, empty buffers and a 64 MiB high-water mark |
| TcpConnection.Enqueue | main/net/TcpConnection.cc:170-186 | the rest of the payload is queued behind the pending bytes and write interest is on. A high-water notice with the new size is scheduled exactly when the queue crosses the mark upwards and the callback is set |
| TcpConnection.SendDirect | main/net/TcpConnection.cc:142-167 | by socket answer: a count queues the unwritten suffix; would-block or an unlisted error queues the whole payload; EPIPE/ECONNRESET changes nothing. Write-complete is scheduled exactly when everything went out; write interest is on exactly when something is queued |
| TcpConnection.SendInLoop | main/net/TcpConnection.cc:131-187 | a disconnected connection ignores the send. Otherwise the queue only grows, by the payload when something was already queued or writing, by the unwritten part on the direct path. The trace gains exactly the write-complete notice (whole payload written directly) and the upward high-water crossing notice |
| TcpConnection.Send | main/net/TcpConnection.cc:85-103 | only a Connected connection sends; any other state leaves it unchanged |
| TcpConnection.SendBuffer | main/net/TcpConnection.cc:105-124 | a Connected connection sends the buffer's unread bytes and the buffer is drained; otherwise both are unchanged |
| TcpConnection.ShutdownInLoop | main/net/TcpConnection.cc:200-207 | the write half is shut down exactly when no write is pending; nothing else changes |
| TcpConnection.Shutdown | main/net/TcpConnection.cc:189-198 | from Connected: Disconnecting, with the half-close emitted exactly when nothing is pending. Any other state is left unchanged |
| TcpConnection.ShutdownAsWritten | main/net/TcpConnection.cc:189-207 | as written: every state ends in Disconnecting and nothing else but the trace changes; the half-close is emitted exactly when nothing is pending |
| TcpConnection.ShutdownAsWrittenReopens | main/net/TcpConnection.cc:189-198 | from Disconnected the as-written shutdown moves the state backwards and shuts the socket down again; the intended one changes nothing |
| TcpConnection.ShutdownAsWrittenClosesTwice | main/net/TcpConnection.cc:189-198 | after the close sequence, as-written shutdown then force-close runs the close callback a second time (two in the trace); with the intended shutdown the force-close adds nothing |
| TcpConnection.ForceClose | main/net/TcpConnection.cc:209-217 | Connected or Disconnecting becomes Disconnecting; other states are left unchanged |
| TcpConnection.ForceCloseWithDelay | main/net/TcpConnection.cc:219-229 | Connected or Disconnecting becomes Disconnecting; Connecting and Disconnected are left unchanged; only the state can change |
| TcpConnection.DelayedForceCloseCloses | main/net/TcpConnection.cc:209-239 | for a Connected or Disconnecting connection, the timer's `forceClose` queues `forceCloseInLoop`, which ends in Disconnected with every other field kept and the trace gaining disableAll, the connection callback and the close callback; `handleClose` is reached in Disconnecting, which the assert at line 380 rejects; any other state arms no timer and stays unchanged |
| TcpConnection.HandleClose | main/net/TcpConnection.cc:376-388 | from Connected or Disconnecting: Disconnected with both interests off, every other field kept. The trace gains disableAll, then the connection callback, then the close callback |
| TcpConnection.HandleCloseAsWritten | main/net/TcpConnection.cc:376-388 | as written: admits only Connected or Connecting, with the same close sequence |
| TcpConnection.ForceCloseInLoop | main/net/TcpConnection.cc:231-239 | the close sequence runs exactly when the state is Connected or Disconnecting: Disconnected, both interests off, every other field kept. Otherwise nothing changes |
| TcpConnection.ForceCloseTripsHandleCloseAssert | main/net/TcpConnection.cc:209-239 | any force-close of an established connection: the queued task reaches handleClose in Disconnecting, which the assert at line 380 rejects |
| TcpConnection.StartReadInLoop | main/net/TcpConnection.cc:268-276 | as written: afterwards both reading_ and the read interest are on, in any state; nothing else changes |
| TcpConnection.StopReadInLoop | main/net/TcpConnection.cc:283-291 | afterwards both reading_ and the read interest are off; nothing else changes |
| TcpConnection.StartReadGuarded | main/net/TcpConnection.cc:268-276 | as intended: a Connected or Disconnecting connection ends with reading and read interest on; any other state is left unchanged |
| TcpConnection.ConnectEstablished | main/net/TcpConnection.cc:293-302 | Connecting becomes Connected with read interest on, and the connection callback runs once |
| TcpConnection.ConnectDestroyed | main/net/TcpConnection.cc:304-315 | a Connected connection becomes Disconnected with every interest off, every other field kept, and the connection callback run; otherwise nothing changes |
| TcpConnection.WroteQueued | main/net/TcpConnection.cc:325-341 | `n` queued bytes are dropped. Write interest goes off exactly when the queue drains; then write-complete is scheduled if set, and the half-close runs if Disconnecting |
| TcpConnection.HandleWrite | main/net/TcpConnection.cc:317-353 | with write interest and a positive count, as WroteQueued. Without write interest, or on a count <= 0, nothing changes |
| TcpConnection.HandleRead | main/net/TcpConnection.cc:355-374 | data is appended to the input, the message callback runs, and nothing else changes. Zero runs the close sequence: Disconnected, interests off, every other field kept. An error goes to handleError |
| TcpConnection.HandleError | main/net/TcpConnection.cc:390-395 | the error is reported and the connection is otherwise unchanged |
| TcpConnection.DefaultMessageCallback | main/net/TcpConnection.cc:25-30 | everything received is discarded and the reader is back at 8 |
| TcpConnection.StepForward | main/net/TcpConnection.cc:189-315 | with `shutdown` guarded by the comparison line 192 evidently means (see Findings), no entry point moves the state backwards, and every one only appends to the trace; as written, `shutdown` moves Disconnected back to Disconnecting (ShutdownAsWrittenReopens) |
| TcpConnection.RunForward | main/net/TcpConnection.cc:189-315 | with the corrected line 192 guard, over any run the state never moves backwards and the trace only grows |
| TcpConnection.SendClosesAtMostOnce | main/net/TcpConnection.cc:131-187 | a send never runs the close callback and never leaves Disconnected |
| TcpConnection.WriteClosesAtMostOnce | main/net/TcpConnection.cc:317-353 | write readiness never runs the close callback and never leaves Disconnected |
| TcpConnection.StepClosesAtMostOnce | main/net/TcpConnection.cc:231-239 | every entry point, including a channel hang-up and a channel error, keeps "close callback run at most once, and only with the state Disconnected" |
| TcpConnection.RunClosesAtMostOnce | main/net/TcpConnection.cc:376-388 | that invariant holds over any enabled run, given two corrections (see Findings): `shutdown` guarded by the comparison line 192 evidently means, and `startRead` guarded by the state. With the latter, every read and hang-up the channel can deliver is enabled (ChannelEventsEnabled) |
| TcpConnection.CloseCallbackAtMostOnce | main/net/TcpConnection.cc:231-239 | from construction, any interleaving of reads, writes, hang-ups, errors, shutdowns and force-closes runs the close callback at most once, given two corrections (see Findings): `shutdown` guarded by the comparison line 192 evidently means (as written it reopens a closed connection and a force-close then runs the close callback again), and `startRead` guarded by the state (as written it can re-arm a closed connection) |
| TcpConnection.CloseIsIdempotent | main/net/TcpConnection.cc:231-239 | a force-close after the close sequence (from a force-close or a zero-length read) changes nothing |
| TcpConnection.StepKeepsOpenInterest | main/net/TcpConnection.cc:268-315 | every entry point keeps "the channel has an interest only while Connected or Disconnecting" |
| TcpConnection.RunKeepsOpenInterest | main/net/TcpConnection.cc:268-315 | that invariant holds over any enabled run |
| TcpConnection.OpenInterestAlways | main/net/TcpConnection.cc:32-58 | from construction the invariant holds after every run |
| TcpConnection.ChannelEventsEnabled | main/net/TcpConnection.cc:355-388 | under the invariant, a read while read interest is on and a hang-up while any interest is on are enabled: the handleClose state conditions follow from the interest |
| TcpConnection.StartReadAfterCloseRearms | main/net/TcpConnection.cc:268-276 | after the peer closes an established connection, the unguarded `startReadInLoop` turns read interest on in Disconnected (close callback already run once), a state neither handleClose assert admits; the guarded one leaves the connection closed |
| TcpConnection.SendAboveMarkQuiet | main/net/TcpConnection.cc:170-180 | a send to a queue at or above the mark schedules no high-water notice, and the queue stays at or above the mark |
| TcpConnection.NoHighWaterWhileAbove | main/net/TcpConnection.cc:170-180 | any run of sends starting at or above the mark schedules no high-water notice |
| TcpConnection.HighWaterCrossingScenario | main/net/TcpConnection.cc:170-180 | Connected, mark 100, a non-empty queue below it: a 150-byte send schedules exactly one notice, carrying the old size + 150, whatever the socket answers |
| TcpConnection.ShutdownWaitsForDrain | main/net/TcpConnection.cc:189-207 | shutdown with output pending emits no half-close and moves to Disconnecting; the write that drains the queue emits it, and the state stays Disconnecting |
| TcpConnection.DefaultCallbackDrainsInput | main/net/TcpConnection.cc:25-30 | a read followed by the default message callback leaves nothing unread |

## Left out

- Threads, `runInLoop`/`queueInLoop` hand-off and `assertInLoopThread`: a call from another thread is the same in-loop body run later; `main/net/EventLoop.h` is not part of this model.
- `forceCloseWithDelay`'s timer and weak callback: the delay is not modelled; the later call is `ForceClose`, and DelayedForceCloseCloses follows it through the queued `forceCloseInLoop`.
- `readFd` (readv into the buffer and an extra stack buffer): its result and the bytes it appended are parameters of `HandleRead`.
- `swap`, `shrink`, `internalCapacity`, `tostring` (the same bytes as `Peek`), the `void*` overloads of `append` and `send`: storage management or thin wrappers with nothing new to state.
- Socket options, TCP info, addresses, logging, `stateToString`, the destructor's assert, `shared_from_this`, `tie` and `channel_->remove()`.
- `handleError`'s `getSocketError`: the model only records that an error was reported.
- The channel's dispatch from poll bits to its four callbacks is in `Channel`, which is not part of this model: a read arrives only while read interest is on, a hang-up only while some interest is on, and an error at any point. With `startRead` guarded, these conditions imply the intended handleClose assert (`ChannelEventsEnabled`).
- `setHighWaterMark` and the callback setters are in the header, which is not part of this model: the mark is a field and callback presence is given at construction.
- Host byte order: encoding is stated directly on bytes, big-endian.
- `size_t` arithmetic is unbounded: wrap-around of the cursors or of `oldLen + remaining` is not modelled.
- Callback bodies: the message callback's effect on the input buffer is not modelled beyond `DefaultMessageCallback`. Scheduled callbacks appear in the trace when scheduled, not when they later run.
- TcpConnection.HandleRead: requires Connected or Disconnecting for a zero-length read, which is the intended handleClose assert rather than the written one (see Findings). The program as written can break it through `startRead` after the close sequence (see Findings); the run model uses the guarded `startRead`.
- TcpConnection.CloseCallbackAtMostOnce: rests on two corrections of the source. First, `shutdown` uses the comparison line 192 evidently means; with the assignment as written, a hang-up, a shutdown and a force-close run the close callback twice (ShutdownAsWrittenClosesTwice). Second, no read or hang-up reaches a connection after its close sequence, which holds with the guarded `startRead` (OpenInterestAlways) but not with `startReadInLoop` as written; without asserts (NDEBUG) that run would invoke the connection and close callbacks a second time.
- TcpConnection.RunClosesAtMostOnce: the same two corrections as CloseCallbackAtMostOnce: the line 192 comparison in `shutdown` and the guarded `startRead`.
- TcpConnection.StepForward: holds for the step relation with the corrected line 192 guard; the as-written `shutdown` moves a Disconnected connection back to Disconnecting (ShutdownAsWrittenReopens).
- TcpConnection.RunForward: the same correction as StepForward.

## Findings

| source | as written | input that shows it | evidently intended | confidence | as-written member | corrected member |
|---|---|---|---|---|---|---|
| main/net/Buffer.h:71-77 | `findEOL(start)` runs `memchr` from `peek()` over all readable bytes and ignores `start` | unread bytes "\n\n", `start` at the second: answers the first newline, which lies before `start` | search from `start` to the writer | high, not executed | NetBuffer.FindEOLFromIgnoresStart | NetBuffer.FindEOLAfter |
| main/net/TcpConnection.cc:192 | `if(state_ = kConnected)` assigns, so the guard holds whenever kConnected is non-zero (the enum is in the header, which is not part of this model) | a connection closed by the peer: `shutdown()` moves it back to Disconnecting, and a following `forceClose` runs the close callback a second time | `state_ == kConnected` | high, not executed | TcpConnection.ShutdownAsWrittenClosesTwice | TcpConnection.Shutdown |
| main/net/TcpConnection.cc:380 | `handleClose` asserts Connected or Connecting, but `forceCloseInLoop` (line 234) calls it in Disconnecting | `connectEstablished`, `forceClose`, then the queued `forceCloseInLoop`: `forceClose` set Disconnecting (line 214), so the state is Disconnecting when the assert runs | assert Connected or Disconnecting | high, not executed | TcpConnection.ForceCloseTripsHandleCloseAssert | TcpConnection.HandleClose |
| main/net/TcpConnection.cc:268-276 | `startReadInLoop` re-enables reading whatever the state, and `handleClose` (line 383) leaves `reading_` set | `connectEstablished`, a zero-length read, then `startRead`: read interest is on in Disconnected, and the persisting end of stream makes the next read call `handleClose` again | re-arm reading only on a Connected or Disconnecting connection | medium, not executed | TcpConnection.StartReadAfterCloseRearms | TcpConnection.StartReadGuarded |

=== FILE: buffer.dfy ===
/**
 The stream buffer of main/net/Buffer.h.

 One contiguous store with two cursors:

     +-------------------+------------------+------------------+
     | prependable bytes |  readable bytes  |  writable bytes  |
     +-------------------+------------------+------------------+
     0          <=   readerIndex   <=   writerIndex   <=   |storage|

 The store starts with `kCheapPrepend` reserved bytes in front of the
 readable region so that headers can be written backwards after the payload.
 Every operation is a pure function from a buffer to a new buffer; what the
 source reads through `peek()` is `Peek(b)`, the readable slice.
 */
module NetBuffer {
  import opened ByteOrder

  const kCheapPrepend: nat := 8
  const kInitialSize: nat := 1024
  const CR: byte := 13
  const LF: byte := 10

  datatype Option<T> = None | Some(value: T)

  datatype Buffer = Buffer(storage: seq<byte>, readerIndex: nat, writerIndex: nat)

  /** The cursor invariant every operation keeps. The store never shrinks
      below the reserved prepend area, so a full drain can always reset the
      cursors to `kCheapPrepend`. */
  predicate Valid(b: Buffer) {
    && b.readerIndex <= b.writerIndex <= |b.storage|
    && kCheapPrepend <= |b.storage|
  }

  /** The unread bytes, what `peek()` points at. */
  function Peek(b: Buffer): seq<byte>
    requires Valid(b)
  {
    b.storage[b.readerIndex..b.writerIndex]
  }

  function WritableBytes(b: Buffer): nat
    requires Valid(b)
  {
    |b.storage| - b.writerIndex
  }

  function PrependableBytes(b: Buffer): nat {
    b.readerIndex
  }

  /** The three regions partition the store, and the readable count is the
      length of the unread slice. */
  function ReadableBytes(b: Buffer): (n: nat)
    requires Valid(b)
    ensures n == |Peek(b)|
    ensures PrependableBytes(b) + n + WritableBytes(b) == |b.storage|
  {
    b.writerIndex - b.readerIndex
  }

  /** `Buffer(initialSize)`: the store is value-initialised (zero bytes). */
  function New(initialSize: nat): (b: Buffer)
    ensures Valid(b)
    ensures ReadableBytes(b) == 0
    ensures WritableBytes(b) == initialSize
    ensures PrependableBytes(b) == kCheapPrepend
  {
    Buffer(seq(kCheapPrepend + initialSize, _ => 0), kCheapPrepend, kCheapPrepend)
  }

  // ---------------------------------------------------------------------
  // Retrieval
  // ---------------------------------------------------------------------

  /** `retrieveAll`: both cursors back to the prepend boundary. */
  function RetrieveAll(b: Buffer): (r: Buffer)
    requires Valid(b)
    ensures Valid(r)
    ensures ReadableBytes(r) == 0
    ensures PrependableBytes(r) == kCheapPrepend
    ensures WritableBytes(r) == |b.storage| - kCheapPrepend
    ensures r.storage == b.storage
  {
    b.(readerIndex := kCheapPrepend, writerIndex := kCheapPrepend)
  }

  /** `retrieve(len)`: drop the first `len` unread bytes. A partial retrieve
      only advances the reader; draining everything resets both cursors. */
  function Retrieve(b: Buffer, len: nat): (r: Buffer)
    requires Valid(b)
    requires len <= ReadableBytes(b)
    ensures Valid(r)
    ensures Peek(r) == Peek(b)[len..]
    ensures r.storage == b.storage
    ensures len < ReadableBytes(b) ==>
              r.readerIndex == b.readerIndex + len && r.writerIndex == b.writerIndex
    ensures len == ReadableBytes(b) ==>
              r.readerIndex == kCheapPrepend && r.writerIndex == kCheapPrepend
  {
    if len < ReadableBytes(b) then b.(readerIndex := b.readerIndex + len)
    else RetrieveAll(b)
  }

  /** `retrieveUntil(end)`, with `end` a position in the store. */
  function RetrieveUntil(b: Buffer, end: nat): (r: Buffer)
    requires Valid(b)
    requires b.readerIndex <= end <= b.writerIndex
    ensures Valid(r)
    ensures Peek(r) == b.storage[end..b.writerIndex]
    ensures end < b.writerIndex ==> r.readerIndex == end
  {
    Retrieve(b, end - b.readerIndex)
  }

  /** `retrieveInt64/32/16/8`: drop one integer of `width` bytes. */
  function RetrieveInt(b: Buffer, width: nat): (r: Buffer)
    requires Valid(b)
    requires IsIntWidth(width) && width <= ReadableBytes(b)
    ensures Valid(r)
    ensures ReadableBytes(r) == ReadableBytes(b) - width
    ensures Peek(r) == Peek(b)[width..]
  {
    Retrieve(b, width)
  }

  /** `retrieveAsString(len)`: copy out the first `len` unread bytes and
      retrieve them, as one step. */
  function RetrieveAsString(b: Buffer, len: nat): (r: (seq<byte>, Buffer))
    requires Valid(b)
    requires len <= ReadableBytes(b)
    ensures Valid(r.1)
    ensures |r.0| == len
    ensures r.0 + Peek(r.1) == Peek(b)
  {
    (Peek(b)[..len], Retrieve(b, len))
  }

  /** `retrieveAllAsString`: everything unread, leaving an empty buffer. */
  function RetrieveAllAsString(b: Buffer): (r: (seq<byte>, Buffer))
    requires Valid(b)
    ensures Valid(r.1)
    ensures r.0 == Peek(b)
    ensures ReadableBytes(r.1) == 0
    ensures PrependableBytes(r.1) == kCheapPrepend
  {
    RetrieveAsString(b, ReadableBytes(b))
  }

  // ---------------------------------------------------------------------
  // Writing
  // ---------------------------------------------------------------------

  /** The store-growing branch of `makeSpace` is taken exactly when the
      free space on both sides cannot hold `len` bytes plus the reserved
      prepend area. */
  predicate MustGrow(b: Buffer, len: nat)
    requires Valid(b)
  {
    WritableBytes(b) + PrependableBytes(b) < len + kCheapPrepend
  }

  /** `makeSpace(len)`, reached only from `ensureWritableBytes` when fewer
      than `len` bytes are writable. Either the store is resized to
      `writerIndex + len` (new bytes zero), or the unread bytes are moved
      down to `kCheapPrepend` inside the same store. */
  function MakeSpace(b: Buffer, len: nat): (r: Buffer)
    requires Valid(b)
    requires WritableBytes(b) < len
    ensures Valid(r)
    ensures Peek(r) == Peek(b)
    ensures WritableBytes(r) >= len
    ensures |r.storage| > |b.storage| <==> MustGrow(b, len)
    ensures MustGrow(b, len) ==>
              && r.readerIndex == b.readerIndex
              && r.writerIndex == b.writerIndex
              && |r.storage| == b.writerIndex + len
    ensures !MustGrow(b, len) ==>
              && kCheapPrepend < b.readerIndex
              && r.readerIndex == kCheapPrepend
              && |r.storage| == |b.storage|
  {
    if MustGrow(b, len) then
      b.(storage := b.storage + seq(b.writerIndex + len - |b.storage|, _ => 0))
    else
      // the source asserts this before moving the data
      assert kCheapPrepend < b.readerIndex;
      var readable := ReadableBytes(b);
      var moved := b.storage[..kCheapPrepend] + Peek(b) + b.storage[kCheapPrepend + readable..];
      assert moved[kCheapPrepend..kCheapPrepend + readable] == Peek(b);
      Buffer(moved, kCheapPrepend, kCheapPrepend + readable)
  }

  /** `ensureWritableBytes(len)`: afterwards at least `len` bytes are
      writable and the unread content is untouched. */
  function EnsureWritableBytes(b: Buffer, len: nat): (r: Buffer)
    requires Valid(b)
    ensures Valid(r)
    ensures WritableBytes(r) >= len
    ensures Peek(r) == Peek(b)
    ensures WritableBytes(b) >= len ==> r == b
  {
    if WritableBytes(b) < len then MakeSpace(b, len) else b
  }

  /** The `std::copy` into `beginWrite()`: `data` lands in the writable
      region; no cursor moves. */
  function CopyToBeginWrite(b: Buffer, data: seq<byte>): (r: Buffer)
    requires Valid(b)
    requires |data| <= WritableBytes(b)
    ensures Valid(r)
    ensures r.readerIndex == b.readerIndex && r.writerIndex == b.writerIndex
    ensures |r.storage| == |b.storage|
    ensures Peek(r) == Peek(b)
    ensures r.storage[b.writerIndex..b.writerIndex + |data|] == data
  {
    var w := b.writerIndex;
    var s := b.storage[..w] + data + b.storage[w + |data|..];
    assert s[b.readerIndex..w] == b.storage[b.readerIndex..w];
    assert s[w..w + |data|] == data;
    b.(storage := s)
  }

  /** `hasWritten(len)`: the next `len` writable bytes become readable. */
  function HasWritten(b: Buffer, len: nat): (r: Buffer)
    requires Valid(b)
    requires len <= WritableBytes(b)
    ensures Valid(r)
    ensures r.storage == b.storage && r.readerIndex == b.readerIndex
    ensures Peek(r) == Peek(b) + b.storage[b.writerIndex..b.writerIndex + len]
  {
    var r := b.(writerIndex := b.writerIndex + len);
    assert Peek(r) == b.storage[b.readerIndex..b.writerIndex] + b.storage[b.writerIndex..b.writerIndex + len];
    r
  }

  /** `unwrite(len)`: the last `len` readable bytes are given back. */
  function Unwrite(b: Buffer, len: nat): (r: Buffer)
    requires Valid(b)
    requires len <= ReadableBytes(b)
    ensures Valid(r)
    ensures r.readerIndex == b.readerIndex && r.storage == b.storage
    ensures Peek(r) == Peek(b)[..ReadableBytes(b) - len]
  {
    b.(writerIndex := b.writerIndex - len)
  }

  /** `append(data, len)`: the unread content grows by exactly `data`. */
  function Append(b: Buffer, data: seq<byte>): (r: Buffer)
    requires Valid(b)
    ensures Valid(r)
    ensures Peek(r) == Peek(b) + data
    ensures WritableBytes(b) >= |data| ==> r.readerIndex == b.readerIndex
  {
    var room := EnsureWritableBytes(b, |data|);
    var copied := CopyToBeginWrite(room, data);
    HasWritten(copied, |data|)
  }

  /** `prepend(data, len)`: `data` is written just before the unread bytes,
      moving the reader back; the writer stays where it was. */
  function Prepend(b: Buffer, data: seq<byte>): (r: Buffer)
    requires Valid(b)
    requires |data| <= PrependableBytes(b)
    ensures Valid(r)
    ensures r.writerIndex == b.writerIndex
    ensures r.readerIndex == b.readerIndex - |data|
    ensures |r.storage| == |b.storage|
    ensures Peek(r) == data + Peek(b)
  {
    var ri := b.readerIndex - |data|;
    var s := b.storage[..ri] + data + b.storage[b.readerIndex..];
    assert s[ri..b.readerIndex] == data;
    assert s[b.readerIndex..b.writerIndex] == b.storage[b.readerIndex..b.writerIndex];
    assert s[ri..b.writerIndex] == s[ri..b.readerIndex] + s[b.readerIndex..b.writerIndex];
    Buffer(s, ri, b.writerIndex)
  }

  // ---------------------------------------------------------------------
  // Fixed-width integers in network byte order
  // ---------------------------------------------------------------------

  /** `appendInt64/32/16/8(x)`: the big-endian bytes of `x` follow the unread content. */
  function AppendInt(b: Buffer, x: int, width: nat): (r: Buffer)
    requires Valid(b)
    requires IsIntWidth(width) && InSignedRange(x, width)
    ensures Valid(r)
    ensures ReadableBytes(r) == ReadableBytes(b) + width
    ensures Peek(r)[..ReadableBytes(b)] == Peek(b)
    ensures DecodeInt(Peek(r)[ReadableBytes(b)..]) == x
  {
    var r := Append(b, EncodeInt(x, width));
    assert Peek(r)[ReadableBytes(b)..] == EncodeInt(x, width);
    DecodeEncodeInt(x, width);
    r
  }

  /** `peekInt64/32/16/8`: the signed value whose big-endian form opens the unread bytes. */
  function PeekInt(b: Buffer, width: nat): (x: int)
    requires Valid(b)
    requires IsIntWidth(width) && width <= ReadableBytes(b)
    ensures InSignedRange(x, width)
    ensures EncodeInt(x, width) == Peek(b)[..width]
  {
    EncodeDecodeInt(Peek(b)[..width]);
    DecodeInt(Peek(b)[..width])
  }

  /** `readInt64/32/16/8`: peek the value, then retrieve its bytes. */
  function ReadInt(b: Buffer, width: nat): (r: (int, Buffer))
    requires Valid(b)
    requires IsIntWidth(width) && width <= ReadableBytes(b)
    ensures Valid(r.1)
    ensures InSignedRange(r.0, width)
    ensures EncodeInt(r.0, width) == Peek(b)[..width]
    ensures Peek(r.1) == Peek(b)[width..]
  {
    (PeekInt(b, width), RetrieveInt(b, width))
  }

  /** `prependInt64/32/16/8(x)`: the big-endian bytes of `x` go in front of the unread bytes. */
  function PrependInt(b: Buffer, x: int, width: nat): (r: Buffer)
    requires Valid(b)
    requires IsIntWidth(width) && InSignedRange(x, width)
    requires width <= PrependableBytes(b)
    ensures Valid(r)
    ensures r.writerIndex == b.writerIndex
    ensures ReadableBytes(r) == ReadableBytes(b) + width
    ensures Peek(r)[width..] == Peek(b)
    ensures DecodeInt(Peek(r)[..width]) == x
  {
    var r := Prepend(b, EncodeInt(x, width));
    assert Peek(r)[..width] == EncodeInt(x, width);
    DecodeEncodeInt(x, width);
    r
  }

  // ---------------------------------------------------------------------
  // Scanning the unread region
  // ---------------------------------------------------------------------

  /** `s` holds "\r\n" at positions i, i+1. */
  predicate IsCRLFAt(s: seq<byte>, i: int) {
    0 <= i && i + 1 < |s| && s[i] == CR && s[i + 1] == LF
  }

  /** The first CRLF in `s` at or after `from`. */
  function SearchCRLF(s: seq<byte>, from: nat): (r: Option<nat>)
    requires from <= |s|
    ensures r.Some? ==> from <= r.value && IsCRLFAt(s, r.value)
    ensures r.Some? ==> forall j :: from <= j < r.value ==> !IsCRLFAt(s, j)
    ensures r.None? ==> forall j :: from <= j ==> !IsCRLFAt(s, j)
    decreases |s| - from
  {
    if from + 2 > |s| then None
    else if s[from] == CR && s[from + 1] == LF then Some(from)
    else SearchCRLF(s, from + 1)
  }

  /** The first occurrence of byte `x` in `s` at or after `from`. */
  function SearchByte(s: seq<byte>, from: nat, x: byte): (r: Option<nat>)
    requires from <= |s|
    ensures r.Some? ==> from <= r.value < |s| && s[r.value] == x
    ensures r.Some? ==> forall j :: from <= j < r.value ==> s[j] != x
    ensures r.None? ==> forall j :: from <= j < |s| ==> s[j] != x
    decreases |s| - from
  {
    if from == |s| then None
    else if s[from] == x then Some(from)
    else SearchByte(s, from + 1, x)
  }

  /** Shift a position in the unread slice to a position in the store. */
  function AtReader(b: Buffer, r: Option<nat>): Option<nat> {
    match r
    case None => None
    case Some(i) => Some(b.readerIndex + i)
  }

  /** `findCRLF(start)`: the store position of the first "\r\n" lying wholly
      inside [start, writerIndex), or none. Only the unread bytes are consulted. */
  function FindCRLFFrom(b: Buffer, start: nat): (r: Option<nat>)
    requires Valid(b)
    requires b.readerIndex <= start <= b.writerIndex
    ensures r.Some? ==> start <= r.value && IsCRLFAt(Peek(b), r.value - b.readerIndex)
    ensures r.Some? ==> forall j :: start - b.readerIndex <= j < r.value - b.readerIndex ==> !IsCRLFAt(Peek(b), j)
    ensures r.None? ==> forall j :: start - b.readerIndex <= j ==> !IsCRLFAt(Peek(b), j)
  {
    AtReader(b, SearchCRLF(Peek(b), start - b.readerIndex))
  }

  /** `findCRLF()`: the search starts at `peek()`. */
  function FindCRLF(b: Buffer): (r: Option<nat>)
    requires Valid(b)
    ensures r.Some? ==> b.readerIndex <= r.value && r.value + 2 <= b.writerIndex
    ensures r.Some? ==> b.storage[r.value] == CR && b.storage[r.value + 1] == LF
    ensures r.Some? ==> forall j :: 0 <= j < r.value - b.readerIndex ==> !IsCRLFAt(Peek(b), j)
    ensures r.None? ==> forall j :: 0 <= j ==> !IsCRLFAt(Peek(b), j)
  {
    FindCRLFFrom(b, b.readerIndex)
  }

  /** `findEOL()`: the store position of the first '\n' among the unread bytes. */
  function FindEOL(b: Buffer): (r: Option<nat>)
    requires Valid(b)
    ensures r.Some? ==> b.readerIndex <= r.value < b.writerIndex && b.storage[r.value] == LF
    ensures r.Some? ==> forall j :: b.readerIndex <= j < r.value ==> b.storage[j] != LF
    ensures r.None? ==> forall j :: b.readerIndex <= j < b.writerIndex ==> b.storage[j] != LF
  {
    var r := SearchByte(Peek(b), 0, LF);
    assert forall j :: b.readerIndex <= j < b.writerIndex ==> b.storage[j] == Peek(b)[j - b.readerIndex];
    AtReader(b, r)
  }

  /** `findEOL(start)` AS WRITTEN: the `memchr` starts at `peek()`, not at
      `start`, so `start` only has to satisfy the two asserts and is
      otherwise ignored. The answer can lie before `start`. */
  function FindEOLFrom(b: Buffer, start: nat): (r: Option<nat>)
    requires Valid(b)
    requires b.readerIndex <= start <= b.writerIndex
    ensures r.Some? ==> b.readerIndex <= r.value < b.writerIndex && b.storage[r.value] == LF
    ensures r.Some? ==> forall j :: b.readerIndex <= j < r.value ==> b.storage[j] != LF
    ensures r.None? ==> forall j :: b.readerIndex <= j < b.writerIndex ==> b.storage[j] != LF
  {
    FindEOL(b)
  }

  /** `findEOL(start)` as evidently intended: the first '\n' in [start, writerIndex). */
  function FindEOLAfter(b: Buffer, start: nat): (r: Option<nat>)
    requires Valid(b)
    requires b.readerIndex <= start <= b.writerIndex
    ensures r.Some? ==> start <= r.value < b.writerIndex && b.storage[r.value] == LF
    ensures r.Some? ==> forall j :: start <= j < r.value ==> b.storage[j] != LF
    ensures r.None? ==> forall j :: start <= j < b.writerIndex ==> b.storage[j] != LF
  {
    var r := SearchByte(Peek(b), start - b.readerIndex, LF);
    assert forall j :: b.readerIndex <= j < b.writerIndex ==> b.storage[j] == Peek(b)[j - b.readerIndex];
    AtReader(b, r)
  }

  /** `findEOL(start)` as written returns a newline lying BEFORE `start`
      when the unread bytes are "\n\n" and `start` points at the second one;
      the intended search returns the second one. */
  lemma FindEOLFromIgnoresStart()
    ensures var b := Buffer(seq(kCheapPrepend, _ => 0) + [LF, LF], kCheapPrepend, kCheapPrepend + 2);
            && Valid(b)
            && FindEOLFrom(b, kCheapPrepend + 1) == Some(kCheapPrepend)
            && FindEOLAfter(b, kCheapPrepend + 1) == Some(kCheapPrepend + 1)
  {
  }

  // ---------------------------------------------------------------------
  // Properties relating several operations
  // ---------------------------------------------------------------------

  /** `retrieveAsString` hands out exactly the bytes appended to an empty buffer. */
  lemma AppendThenRetrieveAll(b: Buffer, data: seq<byte>)
    requires Valid(b) && ReadableBytes(b) == 0
    ensures RetrieveAllAsString(Append(b, data)).0 == data
    ensures ReadableBytes(RetrieveAllAsString(Append(b, data)).1) == 0
  {
  }

  /** `appendIntN(x)` then `readIntN` on an empty buffer yields `x` and leaves
      it empty again, cursors back at the prepend boundary. */
  lemma AppendThenReadInt(b: Buffer, x: int, width: nat)
    requires Valid(b) && ReadableBytes(b) == 0
    requires IsIntWidth(width) && InSignedRange(x, width)
    ensures ReadInt(AppendInt(b, x, width), width).0 == x
    ensures ReadableBytes(ReadInt(AppendInt(b, x, width), width).1) == 0
    ensures PrependableBytes(ReadInt(AppendInt(b, x, width), width).1) == kCheapPrepend
  {
    var a := AppendInt(b, x, width);
    assert ReadableBytes(b) == 0;
    assert Peek(a)[..width] == Peek(a)[0..];
    var (v, r) := ReadInt(a, width);
    assert v == DecodeInt(Peek(a)[..width]);
    assert RetrieveInt(a, width) == RetrieveAll(a);
  }

  /** `prependIntN(x)` then `readIntN` yields `x` and leaves exactly what
      was unread before. */
  lemma PrependThenReadInt(b: Buffer, x: int, width: nat)
    requires Valid(b)
    requires IsIntWidth(width) && InSignedRange(x, width)
    requires width <= PrependableBytes(b)
    ensures ReadInt(PrependInt(b, x, width), width).0 == x
    ensures Peek(ReadInt(PrependInt(b, x, width), width).1) == Peek(b)
  {
  }

  /** `unwrite(len)` takes back an `append` of `len` bytes. */
  lemma AppendThenUnwrite(b: Buffer, data: seq<byte>)
    requires Valid(b)
    ensures Peek(Unwrite(Append(b, data), |data|)) == Peek(b)
  {
  }

  /** Appending a line and retrieving through its CRLF: "PING\r\n" is found
      with its CR four bytes after `peek()`, and taking six bytes hands the
      whole line back and empties the buffer. */
  lemma PingLineScenario()
    ensures var line: seq<byte> := [80, 73, 78, 71, CR, LF];
            var b := Append(New(kInitialSize), line);
            && FindCRLF(b) == Some(b.readerIndex + 4)
            && RetrieveAsString(b, 6).0 == line
            && ReadableBytes(RetrieveAsString(b, 6).1) == 0
  {
    var line: seq<byte> := [80, 73, 78, 71, CR, LF];
    var b := Append(New(kInitialSize), line);
    assert Peek(b) == line;
    assert SearchCRLF(line, 4) == Some(4);
    assert SearchCRLF(line, 3) == Some(4);
    assert SearchCRLF(line, 2) == Some(4);
    assert SearchCRLF(line, 1) == Some(4);
    assert SearchCRLF(line, 0) == Some(4);
  }

  /** A zero-capacity buffer holding one int32_t 1: four readable bytes,
      `peekInt32` gives 1, and `retrieveInt32` leaves nothing readable. */
  lemma Int32OneScenario()
    ensures ReadableBytes(AppendInt(New(0), 1, 4)) == 4
    ensures PeekInt(AppendInt(New(0), 1, 4), 4) == 1
    ensures ReadableBytes(RetrieveInt(AppendInt(New(0), 1, 4), 4)) == 0
  {
    AppendThenReadInt(New(0), 1, 4);
  }
}

=== FILE: byte_order.dfy ===
/**
 Network byte order for the fixed-width integer helpers of the stream buffer.

 A value of `width` bytes is stored most significant byte first (big-endian,
 the usual network byte order). Signed values are
 stored in two's complement, as the C++ `int8_t` .. `int64_t` arguments are.
 Host endianness plays no part here: the encoding is stated directly on bytes.
 */
module ByteOrder {

  /** One octet. An integer subrange rather than a bit-vector, so that the
      codec's arithmetic stays linear for the verifier. */
  newtype byte = b: int | 0 <= b < 256

  /** 256^n, the number of distinct values that n bytes can hold. */
  function Pow256(n: nat): (r: nat)
    ensures r >= 1
  {
    if n == 0 then 1 else 256 * Pow256(n - 1)
  }

  /** Half of 256^n for n >= 1: the first value whose top bit is set. */
  function Half(n: nat): (h: nat)
    ensures n >= 1 ==> Pow256(n) == 2 * h
  {
    if n == 0 then 0 else 128 * Pow256(n - 1)
  }

  /** The widths the buffer's integer helpers use: int8_t, int16_t, int32_t, int64_t. */
  predicate IsIntWidth(width: nat) {
    width == 1 || width == 2 || width == 4 || width == 8
  }

  /** The value range of a signed two's-complement integer of `width` bytes. */
  predicate InSignedRange(x: int, width: nat) {
    -(Half(width) as int) <= x < Half(width)
  }

  /** The unsigned value of a big-endian byte string. */
  function FromBigEndian(bs: seq<byte>): (v: nat)
    ensures v < Pow256(|bs|)
    decreases |bs|
  {
    if |bs| == 0 then 0
    else
      var high := FromBigEndian(bs[..|bs| - 1]);
      var low := bs[|bs| - 1] as nat;
      ShiftInBound(high, low, Pow256(|bs| - 1));
      high * 256 + low
  }

  /** Shifting a value below p left by one byte and adding a byte stays below 256 * p. */
  lemma ShiftInBound(high: nat, low: nat, p: nat)
    requires high < p && low < 256
    ensures high * 256 + low < 256 * p
  {
  }

  /** The big-endian encoding of `v` in exactly `width` bytes. */
  function ToBigEndian(v: nat, width: nat): (bs: seq<byte>)
    requires v < Pow256(width)
    ensures |bs| == width
    decreases width
  {
    if width == 0 then []
    else
      assert v / 256 < Pow256(width - 1);
      ToBigEndian(v / 256, width - 1) + [(v % 256) as byte]
  }

  /** Decoding undoes encoding: the encoded bytes read back as the same value. */
  lemma {:induction false} FromToBigEndian(v: nat, width: nat)
    requires v < Pow256(width)
    ensures FromBigEndian(ToBigEndian(v, width)) == v
    decreases width
  {
    if width > 0 {
      var bs := ToBigEndian(v, width);
      var q, b := v / 256, v % 256;
      assert q < Pow256(width - 1);
      var init := ToBigEndian(q, width - 1);
      assert bs == init + [b as byte];
      assert bs[..width - 1] == init;
      assert bs[width - 1] as nat == b;
      FromToBigEndian(q, width - 1);
      assert FromBigEndian(bs) == FromBigEndian(init) * 256 + b;
    }
  }

  /** Encoding undoes decoding: every byte string is the encoding of its value. */
  lemma {:induction false} ToFromBigEndian(bs: seq<byte>)
    ensures ToBigEndian(FromBigEndian(bs), |bs|) == bs
    decreases |bs|
  {
    if |bs| > 0 {
      var n := |bs|;
      var high := FromBigEndian(bs[..n - 1]);
      var v := FromBigEndian(bs);
      assert v == high * 256 + bs[n - 1] as nat;
      assert v / 256 == high && v % 256 == bs[n - 1] as nat;
      ToFromBigEndian(bs[..n - 1]);
      assert bs == bs[..n - 1] + [bs[n - 1]];
    }
  }

  /** The bytes that `appendIntN`/`prependIntN` store for the signed value `x`. */
  function EncodeInt(x: int, width: nat): (bs: seq<byte>)
    requires IsIntWidth(width) && InSignedRange(x, width)
    ensures |bs| == width
    ensures (x < 0) <==> (bs[0] as nat >= 128)
  {
    var u := if x < 0 then x + Pow256(width) else x;
    var bs := ToBigEndian(u, width);
    FromToBigEndian(u, width);
    TopByteSign(bs);
    bs
  }

  /** The signed value that `peekIntN` reads from `width` big-endian bytes. */
  function DecodeInt(bs: seq<byte>): (x: int)
    requires IsIntWidth(|bs|)
    ensures InSignedRange(x, |bs|)
    ensures (x < 0) <==> (bs[0] as nat >= 128)
  {
    var u := FromBigEndian(bs);
    TopByteSign(bs);
    if u >= Half(|bs|) then u - Pow256(|bs|) else u
  }

  /** The first byte of a big-endian string carries the top bit: it is at
      least 128 exactly when the value is in the upper half of its range. */
  lemma {:induction false} TopByteSign(bs: seq<byte>)
    requires |bs| >= 1
    ensures (bs[0] as nat >= 128) <==> (FromBigEndian(bs) >= Half(|bs|))
    decreases |bs|
  {
    var n := |bs|;
    if n == 1 {
      assert bs[..0] == [];
    } else {
      var init := bs[..n - 1];
      assert init[0] == bs[0];
      TopByteSign(init);
      var high := FromBigEndian(init);
      var half := Half(n - 1);
      assert Half(n) == half * 256;
      assert FromBigEndian(bs) == high * 256 + bs[n - 1] as nat;
      if high >= half {
        assert high * 256 >= half * 256;
      } else {
        assert high <= half - 1;
        assert high * 256 <= half * 256 - 256;
      }
    }
  }

  /** `peekIntN` after `appendIntN(x)` or `prependIntN(x)` yields `x`. */
  lemma DecodeEncodeInt(x: int, width: nat)
    requires IsIntWidth(width) && InSignedRange(x, width)
    ensures DecodeInt(EncodeInt(x, width)) == x
  {
    var u := if x < 0 then x + Pow256(width) else x;
    FromToBigEndian(u, width);
  }

  /** Every `width`-byte string is the stored form of exactly the value read from it. */
  lemma EncodeDecodeInt(bs: seq<byte>)
    requires IsIntWidth(|bs|)
    ensures EncodeInt(DecodeInt(bs), |bs|) == bs
  {
    ToFromBigEndian(bs);
  }

  /** Concrete encodings: 1 as int32_t is 00 00 00 01; -1 as int16_t is ff ff;
      0x0102 as int16_t is 01 02. */
  lemma EncodeExamples()
    ensures EncodeInt(1, 4) == [0, 0, 0, 1]
    ensures EncodeInt(-1, 2) == [0xff, 0xff]
    ensures EncodeInt(0x0102, 2) == [0x01, 0x02]
  {
  }
}

=== FILE: connection.dfy ===
/**
 The per-connection state machine and send/receive policy of
 main/net/TcpConnection.cc, in-loop bodies only.

 A connection is a value; every handler returns the next value. What the
 source does through its collaborators (callbacks, the channel's interest
 set, `shutdownWrite` on the socket) is recorded in an append-only trace of
 effects. What the socket answers is an oracle parameter: the result of
 `write` on the direct-write path and in `handleWrite`, and the result of
 `readFd` in `handleRead`.

 Callbacks the source schedules with `queueInLoop` (write-complete,
 high-water mark) appear in the trace at the point where they are scheduled.
 */
module TcpConnection {
  import opened ByteOrder
  import opened NetBuffer

  datatype State = Connecting | Connected | Disconnecting | Disconnected

  /** Position of a state on the forward path Connecting -> Connected ->
      Disconnecting -> Disconnected. */
  function Rank(s: State): nat {
    match s
    case Connecting => 0
    case Connected => 1
    case Disconnecting => 2
    case Disconnected => 3
  }

  /** What a connection does to the world around it. */
  datatype Effect =
    | HighWater(size: nat)   // high-water-mark callback scheduled with the buffered size
    | WriteComplete          // write-complete callback scheduled
    | ConnCb                 // connection callback invoked
    | CloseCb                // close callback invoked
    | ShutdownWrite          // write half of the socket shut down
    | DisableAll             // every interest of the channel disabled
    | MessageCb              // message callback invoked with the input buffer
    | ErrorReported          // handleError run

  /** What `write` on the socket answers: a byte count, or errno. */
  datatype WriteResult =
    | Wrote(n: nat)
    | WouldBlock   // EWOULDBLOCK
    | Pipe         // EPIPE
    | Reset        // ECONNRESET
    | OtherErr     // any other errno

  const kDefaultHighWaterMark: nat := 64 * 1024 * 1024

  datatype Connection = Connection(
    state: State,
    input: Buffer,
    output: Buffer,
    writing: bool,                    // the channel's write interest
    readInterest: bool,               // the channel's read interest
    reading: bool,                    // reading_
    highWaterMark: nat,
    hasWriteCompleteCallback: bool,   // writeCompleteCallback_ is set
    hasHighWaterMarkCallback: bool,   // highWaterMarkCallback_ is set
    trace: seq<Effect>)

  predicate WellFormed(c: Connection) {
    NetBuffer.Valid(c.input) && NetBuffer.Valid(c.output)
  }

  /** The states from which the close sequence may run. The source's
      forceCloseInLoop guards on these; see HandleClose for its assert. */
  predicate Closable(s: State) {
    s == Connected || s == Disconnecting
  }

  /** The constructor. The two optional callbacks are set through setters
      declared in the header; their presence is taken as given. */
  function NewConnection(hasWriteCompleteCallback: bool, hasHighWaterMarkCallback: bool): (c: Connection)
    ensures WellFormed(c)
    ensures c.state == Connecting
    ensures c.reading && !c.readInterest && !c.writing
    ensures c.highWaterMark == 64 * 1024 * 1024
    ensures ReadableBytes(c.input) == 0 && ReadableBytes(c.output) == 0
    ensures c.trace == []
  {
    Connection(Connecting, New(kInitialSize), New(kInitialSize), false, false, true,
               kDefaultHighWaterMark, hasWriteCompleteCallback, hasHighWaterMarkCallback, [])
  }

  // ---------------------------------------------------------------------
  // Sending
  // ---------------------------------------------------------------------

  /** sendInLoop writes to the socket directly only when nothing is queued
      and the channel is not already waiting to write. */
  predicate CanWriteDirectly(c: Connection)
    requires WellFormed(c)
  {
    !c.writing && ReadableBytes(c.output) == 0
  }

  /** The notice a queue growing from `oldLen` to `newLen` bytes produces:
      one high-water notice carrying the new size, exactly when the queue
      crosses the mark upwards and the callback is set. */
  function HighWaterNotice(c: Connection, oldLen: nat, newLen: nat): seq<Effect> {
    if c.hasHighWaterMarkCallback && oldLen < c.highWaterMark <= newLen then [HighWater(newLen)] else []
  }

  /** The queueing step of sendInLoop: schedule the high-water-mark
      callback if the queue crosses the mark, append `rest`, and turn write
      interest on. */
  function Enqueue(c: Connection, rest: seq<byte>): (r: Connection)
    requires WellFormed(c)
    ensures WellFormed(r)
    ensures r.(output := c.output, writing := c.writing, trace := c.trace) == c
    ensures Peek(r.output) == Peek(c.output) + rest
    ensures r.writing
    ensures r.trace == c.trace + HighWaterNotice(c, ReadableBytes(c.output), ReadableBytes(r.output))
  {
    var oldLen := ReadableBytes(c.output);
    var crossing :=
      if oldLen + |rest| >= c.highWaterMark && oldLen < c.highWaterMark && c.hasHighWaterMarkCallback
      then [HighWater(oldLen + |rest|)]
      else [];
    c.(output := Append(c.output, rest), writing := true, trace := c.trace + crossing)
  }

  /** The direct-write path of sendInLoop, taken when nothing is queued.
      The socket's answer is classified: a count writes that many bytes and
      queues the rest; would-block, and any error other than EPIPE and
      ECONNRESET (which is only logged), count as zero bytes written;
      EPIPE and ECONNRESET raise the fault flag, and nothing is queued. */
  function SendDirect(c: Connection, data: seq<byte>, res: WriteResult): (r: Connection)
    requires WellFormed(c) && CanWriteDirectly(c)
    requires res.Wrote? ==> res.n <= |data|
    ensures WellFormed(r)
    ensures r.(output := c.output, writing := c.writing, trace := c.trace) == c
    ensures res.Pipe? || res.Reset? ==> r == c
    ensures res.Wrote? ==> Peek(r.output) == data[res.n..]
    ensures res.WouldBlock? || res.OtherErr? ==> Peek(r.output) == data
    ensures r.writing <==> ReadableBytes(r.output) > 0
    ensures r.trace == c.trace
                       + (if res.Wrote? && res.n == |data| && c.hasWriteCompleteCallback then [WriteComplete] else [])
                       + HighWaterNotice(c, 0, ReadableBytes(r.output))
  {
    match res
    case Wrote(n) =>
      if n == |data| then
        if c.hasWriteCompleteCallback then c.(trace := c.trace + [WriteComplete]) else c
      else
        Enqueue(c, data[n..])
    case Pipe => c
    case Reset => c
    case _ =>
      if |data| > 0 then Enqueue(c, data) else c
  }

  /** sendInLoop(data, len). Gives up on a disconnected connection; otherwise
      tries the socket when nothing is queued, and queues whatever was not
      written unless the write faulted. The write-complete callback is
      scheduled when the whole payload went out directly; the high-water-mark
      callback only when the queue crosses the mark upwards. */
  function SendInLoop(c: Connection, data: seq<byte>, res: WriteResult): (r: Connection)
    requires WellFormed(c)
    requires res.Wrote? ==> res.n <= |data|
    ensures WellFormed(r)
    ensures c.state == Disconnected ==> r == c
    ensures r.(output := c.output, writing := c.writing, trace := c.trace) == c
    // what is queued
    ensures ReadableBytes(r.output) >= ReadableBytes(c.output)
    ensures c.state != Disconnected && !CanWriteDirectly(c) ==>
              Peek(r.output) == Peek(c.output) + data
    ensures c.state != Disconnected && CanWriteDirectly(c) && res.Wrote? ==>
              Peek(r.output) == data[res.n..]
    ensures c.state != Disconnected && CanWriteDirectly(c) && (res.WouldBlock? || res.OtherErr?) ==>
              Peek(r.output) == data
    ensures CanWriteDirectly(c) && (res.Pipe? || res.Reset?) ==> r == c
    ensures r.writing <==> c.writing || ReadableBytes(r.output) > ReadableBytes(c.output)
    // what is scheduled
    ensures r.trace == c.trace
                       + (if c.state != Disconnected && CanWriteDirectly(c) && res.Wrote? && res.n == |data|
                             && c.hasWriteCompleteCallback
                          then [WriteComplete] else [])
                       + HighWaterNotice(c, ReadableBytes(c.output), ReadableBytes(r.output))
  {
    if c.state == Disconnected then c
    else if CanWriteDirectly(c) then SendDirect(c, data, res)
    else if |data| > 0 then Enqueue(c, data)
    else c
  }

  /** send(message): only a connected connection sends. */
  function Send(c: Connection, data: seq<byte>, res: WriteResult): (r: Connection)
    requires WellFormed(c)
    requires res.Wrote? ==> res.n <= |data|
    ensures WellFormed(r)
    ensures c.state != Connected ==> r == c
    ensures c.state == Connected ==> r == SendInLoop(c, data, res)
  {
    if c.state == Connected then SendInLoop(c, data, res) else c
  }

  /** send(Buffer*): sends the readable bytes of `buf` and then drains it. */
  function SendBuffer(c: Connection, buf: Buffer, res: WriteResult): (r: (Connection, Buffer))
    requires WellFormed(c) && NetBuffer.Valid(buf)
    requires res.Wrote? ==> res.n <= ReadableBytes(buf)
    ensures WellFormed(r.0) && NetBuffer.Valid(r.1)
    ensures c.state != Connected ==> r == (c, buf)
    ensures c.state == Connected ==> r.0 == SendInLoop(c, Peek(buf), res)
    ensures c.state == Connected ==> ReadableBytes(r.1) == 0
  {
    if c.state == Connected then (SendInLoop(c, Peek(buf), res), RetrieveAll(buf))
    else (c, buf)
  }

  // ---------------------------------------------------------------------
  // Half-close and force-close
  // ---------------------------------------------------------------------

  /** shutdownInLoop: the write half is shut down only when no output is
      pending; otherwise handleWrite does it once the queue drains. */
  function ShutdownInLoop(c: Connection): (r: Connection)
    ensures r.(trace := c.trace) == c
    ensures !c.writing ==> r.trace == c.trace + [ShutdownWrite]
    ensures c.writing ==> r == c
  {
    if !c.writing then c.(trace := c.trace + [ShutdownWrite]) else c
  }

  /** shutdown(), reading the guard at line 192 as the comparison
      `state_ == kConnected` it evidently means. */
  function Shutdown(c: Connection): (r: Connection)
    requires WellFormed(c)
    ensures WellFormed(r)
    ensures c.state != Connected ==> r == c
    ensures c.state == Connected ==> r.state == Disconnecting
    ensures c.state == Connected ==> r.(state := c.state, trace := c.trace) == c
    ensures c.state == Connected ==> r.trace == c.trace + (if c.writing then [] else [ShutdownWrite])
  {
    if c.state == Connected then ShutdownInLoop(c.(state := Disconnecting)) else c
  }

  /** shutdown() AS WRITTEN: `if(state_ = kConnected)` assigns, so the guard
      always holds and any state, even Disconnected, ends in Disconnecting. */
  function ShutdownAsWritten(c: Connection): (r: Connection)
    ensures r == c.(state := Disconnecting, trace := r.trace)
    ensures !c.writing ==> r.trace == c.trace + [ShutdownWrite]
    ensures c.writing ==> r.trace == c.trace
  {
    ShutdownInLoop(c.(state := Connected).(state := Disconnecting))
  }

  /** The assignment in the guard lets shutdown() move a closed connection
      back to Disconnecting and shut its socket down a second time, while
      the comparison leaves it alone. */
  lemma ShutdownAsWrittenReopens(c: Connection)
    requires WellFormed(c)
    requires c.state == Disconnected && !c.writing
    ensures Rank(ShutdownAsWritten(c).state) < Rank(c.state)
    ensures ShutdownAsWritten(c).trace == c.trace + [ShutdownWrite]
    ensures Shutdown(c) == c
  {
  }

  /** forceClose(): marks the connection Disconnecting and queues
      forceCloseInLoop (line 215 binds `forceInLoop`; the member at line
      231 is meant). The queued task is ForceCloseInLoop, run later. */
  function ForceClose(c: Connection): (r: Connection)
    ensures Closable(c.state) ==> r == c.(state := Disconnecting)
    ensures !Closable(c.state) ==> r == c
  {
    if Closable(c.state) then c.(state := Disconnecting) else c
  }

  /** forceCloseWithDelay(seconds): the immediate state change only
      (`kDisconnection` at line 223 is read as kDisconnecting). After the
      delay the source calls forceClose again, which is ForceClose. */
  function ForceCloseWithDelay(c: Connection): (r: Connection)
    ensures Closable(c.state) ==> r.state == Disconnecting
    ensures !Closable(c.state) ==> r == c
    ensures r.(state := c.state) == c
  {
    ForceClose(c)
  }

  /** handleClose, with the assert read as `kConnected || kDisconnecting`:
      the connection becomes Disconnected, its channel is silenced, and the
      connection callback then the close callback run. */
  function HandleClose(c: Connection): (r: Connection)
    requires Closable(c.state)
    ensures r == c.(state := Disconnected, writing := false, readInterest := false, trace := r.trace)
    ensures r.trace == c.trace + [DisableAll, ConnCb, CloseCb]
  {
    c.(state := Disconnected, writing := false, readInterest := false,
       trace := c.trace + [DisableAll, ConnCb, CloseCb])
  }

  /** handleClose AS WRITTEN: its assert (line 380) admits Connecting and
      Connected only. */
  function HandleCloseAsWritten(c: Connection): (r: Connection)
    requires c.state == Connected || c.state == Connecting
    ensures r == c.(state := Disconnected, writing := false, readInterest := false, trace := r.trace)
    ensures r.trace == c.trace + [DisableAll, ConnCb, CloseCb]
  {
    c.(state := Disconnected, writing := false, readInterest := false,
       trace := c.trace + [DisableAll, ConnCb, CloseCb])
  }

  /** forceCloseInLoop: runs the close sequence only while the connection is
      Connected or Disconnecting, so it fires at most once. */
  function ForceCloseInLoop(c: Connection): (r: Connection)
    ensures Closable(c.state) ==>
              r == c.(state := Disconnected, writing := false, readInterest := false, trace := r.trace)
    ensures Closable(c.state) ==> r.trace == c.trace + [DisableAll, ConnCb, CloseCb]
    ensures !Closable(c.state) ==> r == c
  {
    if Closable(c.state) then HandleClose(c) else c
  }

  /** forceClose sets Disconnecting before it queues forceCloseInLoop, so
      every force-close of an established connection reaches handleClose in
      Disconnecting, a state the assert at line 380 rejects: the source's
      own force-close path trips its assert. */
  lemma ForceCloseTripsHandleCloseAssert(hasWriteComplete: bool, hasHighWater: bool)
    ensures var c := ForceClose(ConnectEstablished(NewConnection(hasWriteComplete, hasHighWater)));
            && c.state == Disconnecting
            && Closable(c.state)
            && !(c.state == Connected || c.state == Connecting)
            && ForceCloseInLoop(c).trace == c.trace + [DisableAll, ConnCb, CloseCb]
  {
  }

  // ---------------------------------------------------------------------
  // Read interest and lifecycle
  // ---------------------------------------------------------------------

  /** startReadInLoop: afterwards reading is on, whether or not it was. */
  function StartReadInLoop(c: Connection): (r: Connection)
    ensures r == c.(reading := true, readInterest := true)
  {
    if !c.reading || !c.readInterest then c.(readInterest := true, reading := true) else c
  }

  /** startReadInLoop with the state check it evidently lacks: only a live
      (Connected or Disconnecting) connection re-arms reading; once the
      close sequence has run, or before the connection is established,
      nothing changes. */
  function StartReadGuarded(c: Connection): (r: Connection)
    ensures Closable(c.state) ==> r == c.(reading := true, readInterest := true)
    ensures !Closable(c.state) ==> r == c
  {
    if Closable(c.state) then StartReadInLoop(c) else c
  }

  /** stopReadInLoop: afterwards reading is off, whether or not it was. */
  function StopReadInLoop(c: Connection): (r: Connection)
    ensures r == c.(reading := false, readInterest := false)
  {
    if c.reading || c.readInterest then c.(readInterest := false, reading := false) else c
  }

  /** connectEstablished: the one way out of Connecting. */
  function ConnectEstablished(c: Connection): (r: Connection)
    requires c.state == Connecting
    ensures r.state == Connected && r.readInterest
    ensures r.(state := c.state, readInterest := c.readInterest) == c.(trace := r.trace)
    ensures r.trace == c.trace + [ConnCb]
  {
    c.(state := Connected, readInterest := true, trace := c.trace + [ConnCb])
  }

  /** connectDestroyed: tears a still-connected connection down (without
      the close callback); in any other state nothing changes. */
  function ConnectDestroyed(c: Connection): (r: Connection)
    ensures c.state == Connected ==>
              r == c.(state := Disconnected, writing := false, readInterest := false, trace := r.trace)
    ensures c.state == Connected ==> r.trace == c.trace + [DisableAll, ConnCb]
    ensures c.state != Connected ==> r == c
  {
    if c.state == Connected then
      c.(state := Disconnected, writing := false, readInterest := false,
         trace := c.trace + [DisableAll, ConnCb])
    else c
  }

  // ---------------------------------------------------------------------
  // Readiness handlers
  // ---------------------------------------------------------------------

  /** A write of `n` bytes empties the queue the channel was waiting on. */
  predicate Drains(c: Connection, n: int)
    requires WellFormed(c)
  {
    c.writing && n > 0 && n == ReadableBytes(c.output)
  }

  /** The part of handleWrite after the socket took `n` > 0 queued bytes. */
  function WroteQueued(c: Connection, n: nat): (r: Connection)
    requires WellFormed(c) && c.writing
    requires 0 < n <= ReadableBytes(c.output)
    ensures WellFormed(r)
    ensures r.(output := c.output, writing := c.writing, trace := c.trace) == c
    ensures Peek(r.output) == Peek(c.output)[n..]
    ensures r.writing <==> !Drains(c, n)
    ensures r.trace == c.trace
                       + (if Drains(c, n) && c.hasWriteCompleteCallback then [WriteComplete] else [])
                       + (if Drains(c, n) && c.state == Disconnecting then [ShutdownWrite] else [])
  {
    var out := Retrieve(c.output, n);
    if ReadableBytes(out) == 0 then
      var done := if c.hasWriteCompleteCallback then [WriteComplete] else [];
      var c1 := c.(output := out, writing := false, trace := c.trace + done);
      if c.state == Disconnecting then ShutdownInLoop(c1) else c1
    else
      c.(output := out)
  }

  /** handleWrite with `n` the result of `write` on the queued bytes. A
      positive count drops that many queued bytes; once the queue is empty
      the write interest is dropped, the write-complete callback scheduled
      (line 331 compares `state_` with the callback; the intent is "if the
      callback is set") and a pending half-close completed. */
  function HandleWrite(c: Connection, n: int): (r: Connection)
    requires WellFormed(c)
    requires c.writing ==> n <= ReadableBytes(c.output)
    ensures WellFormed(r)
    ensures !c.writing || n <= 0 ==> r == c
    ensures r.(output := c.output, writing := c.writing, trace := c.trace) == c
    ensures c.writing && n > 0 ==> Peek(r.output) == Peek(c.output)[n..]
    ensures r.writing <==> c.writing && !Drains(c, n)
    ensures r.trace == c.trace
                       + (if Drains(c, n) && c.hasWriteCompleteCallback then [WriteComplete] else [])
                       + (if Drains(c, n) && c.state == Disconnecting then [ShutdownWrite] else [])
  {
    if c.writing && n > 0 then WroteQueued(c, n) else c
  }

  /** handleRead with `n` the result of readFd and `incoming` the bytes it
      appended. Data goes to the message callback, end of stream runs the
      close sequence, an error is only reported. */
  function HandleRead(c: Connection, n: int, incoming: seq<byte>): (r: Connection)
    requires WellFormed(c)
    requires n > 0 ==> |incoming| == n
    requires n == 0 ==> Closable(c.state)
    ensures WellFormed(r)
    ensures n > 0 ==> r.(input := c.input, trace := c.trace) == c
    ensures n > 0 ==> Peek(r.input) == Peek(c.input) + incoming
    ensures n > 0 ==> r.trace == c.trace + [MessageCb]
    ensures n == 0 ==>
              r == c.(state := Disconnected, writing := false, readInterest := false, trace := r.trace)
    ensures n == 0 ==> r.trace == c.trace + [DisableAll, ConnCb, CloseCb]
    ensures n < 0 ==> r == HandleError(c)
  {
    if n > 0 then c.(input := Append(c.input, incoming), trace := c.trace + [MessageCb])
    else if n == 0 then HandleClose(c)
    else HandleError(c)
  }

  /** handleError: the socket error is fetched and logged; the connection
      itself does not change. */
  function HandleError(c: Connection): (r: Connection)
    ensures r.(trace := c.trace) == c
    ensures r.trace == c.trace + [ErrorReported]
  {
    c.(trace := c.trace + [ErrorReported])
  }

  /** defaultMessageCallback: discards everything received. */
  function DefaultMessageCallback(buf: Buffer): (r: Buffer)
    requires NetBuffer.Valid(buf)
    ensures NetBuffer.Valid(r)
    ensures ReadableBytes(r) == 0 && PrependableBytes(r) == kCheapPrepend
  {
    RetrieveAll(buf)
  }

  // ---------------------------------------------------------------------
  // Runs: every in-loop entry point as an event
  // ---------------------------------------------------------------------

  datatype Event =
    | SendEv(data: seq<byte>, result: WriteResult)
    | ShutdownEv
    | ForceCloseEv
    | ForceCloseTask                         // the queued forceCloseInLoop
    | StartReadEv
    | StopReadEv
    | EstablishedEv
    | DestroyedEv
    | WriteReady(n: int)                     // handleWrite, write answered n
    | ReadReady(n: int, incoming: seq<byte>) // handleRead, readFd answered n
    | HangUpEv                               // the channel's close callback, handleClose
    | ErrorEv                                // the channel's error callback, handleError

  /** The conditions the source demands before each entry point: oracle
      answers consistent with the request, the asserts of connectEstablished
      and handleClose (for a zero-length read and for a hang-up), and channel
      events only while the channel has the matching interest. Under
      OpenInterest the handleClose conjuncts follow from the interest: see
      ChannelEventsEnabled. */
  predicate Enabled(c: Connection, e: Event)
    requires WellFormed(c)
  {
    match e
    case SendEv(data, res) => res.Wrote? ==> res.n <= |data|
    case EstablishedEv => c.state == Connecting
    case WriteReady(n) => c.writing ==> n <= ReadableBytes(c.output)
    case ReadReady(n, incoming) =>
      && c.readInterest
      && (n > 0 ==> |incoming| == n)
      && (n == 0 ==> Closable(c.state))
    case HangUpEv => (c.readInterest || c.writing) && Closable(c.state)
    case _ => true
  }

  /** One entry point. The step relation uses the corrected definitions
      where the source is wrong (see README "Findings"): `Shutdown` with
      the comparison line 192 evidently meant, `StartReadGuarded` for
      startReadInLoop, and `HandleClose` with the intended line 380 assert.
      Under the as-written shutdown the state can move backwards
      (ShutdownAsWrittenReopens) and the close callback can run twice
      (ShutdownAsWrittenClosesTwice). */
  function Step(c: Connection, e: Event): (r: Connection)
    requires WellFormed(c) && Enabled(c, e)
    ensures WellFormed(r)
  {
    match e
    case SendEv(data, res) => Send(c, data, res)
    case ShutdownEv => Shutdown(c)
    case ForceCloseEv => ForceClose(c)
    case ForceCloseTask => ForceCloseInLoop(c)
    case StartReadEv => StartReadGuarded(c)
    case StopReadEv => StopReadInLoop(c)
    case EstablishedEv => ConnectEstablished(c)
    case DestroyedEv => ConnectDestroyed(c)
    case WriteReady(n) => HandleWrite(c, n)
    case ReadReady(n, incoming) => HandleRead(c, n, incoming)
    case HangUpEv => HandleClose(c)
    case ErrorEv => HandleError(c)
  }

  /** Every event of `es` is enabled when its turn comes. */
  predicate RunEnabled(c: Connection, es: seq<Event>)
    requires WellFormed(c)
    decreases |es|
  {
    |es| == 0 || (Enabled(c, es[0]) && RunEnabled(Step(c, es[0]), es[1..]))
  }

  function Run(c: Connection, es: seq<Event>): (r: Connection)
    requires WellFormed(c) && RunEnabled(c, es)
    ensures WellFormed(r)
    decreases |es|
  {
    if |es| == 0 then c else Run(Step(c, es[0]), es[1..])
  }

  // ---------------------------------------------------------------------
  // Properties of steps and runs
  // ---------------------------------------------------------------------

  /** Every step of the corrected step relation moves the state forward (or
      keeps it) and only appends to the trace. */
  lemma StepForward(c: Connection, e: Event)
    requires WellFormed(c) && Enabled(c, e)
    ensures Rank(Step(c, e).state) >= Rank(c.state)
    ensures c.trace <= Step(c, e).trace
  {
    match e
    case SendEv(data, res) =>
    case ShutdownEv =>
    case ForceCloseEv =>
    case ForceCloseTask =>
    case StartReadEv =>
    case StopReadEv =>
    case EstablishedEv =>
    case DestroyedEv =>
    case WriteReady(n) =>
    case ReadReady(n, incoming) =>
    case HangUpEv =>
    case ErrorEv =>
  }

  /** Over any run the state only moves forward and the trace only grows. */
  lemma {:induction false} RunForward(c: Connection, es: seq<Event>)
    requires WellFormed(c) && RunEnabled(c, es)
    ensures Rank(Run(c, es).state) >= Rank(c.state)
    ensures c.trace <= Run(c, es).trace
    decreases |es|
  {
    if |es| > 0 {
      StepForward(c, es[0]);
      RunForward(Step(c, es[0]), es[1..]);
    }
  }

  /** The number of close-callback invocations in a trace. */
  function CountCloses(t: seq<Effect>): nat
    decreases |t|
  {
    if |t| == 0 then 0
    else CountCloses(t[..|t| - 1]) + (if t[|t| - 1] == CloseCb then 1 else 0)
  }

  lemma {:induction false} CountClosesAppend(a: seq<Effect>, b: seq<Effect>)
    ensures CountCloses(a + b) == CountCloses(a) + CountCloses(b)
    decreases |b|
  {
    if |b| == 0 {
      assert a + b == a;
    } else {
      assert (a + b)[..|a + b| - 1] == a + b[..|b| - 1];
      assert (a + b)[|a + b| - 1] == b[|b| - 1];
      CountClosesAppend(a, b[..|b| - 1]);
    }
  }

  lemma {:induction false} CountClosesNone(t: seq<Effect>)
    requires CloseCb !in t
    ensures CountCloses(t) == 0
    decreases |t|
  {
    if |t| > 0 {
      assert t[..|t| - 1] + [t[|t| - 1]] == t;
      CountClosesNone(t[..|t| - 1]);
    }
  }

  /** The close callback has run at most once, and if it has, the
      connection is Disconnected. */
  predicate ClosedAtMostOnce(c: Connection) {
    && CountCloses(c.trace) <= 1
    && (CountCloses(c.trace) == 1 ==> c.state == Disconnected)
  }

  /** A step that adds no close callback and does not leave Disconnected. */
  lemma QuietStep(c: Connection, r: Connection, tail: seq<Effect>)
    requires ClosedAtMostOnce(c)
    requires r.trace == c.trace + tail && CloseCb !in tail
    requires c.state == Disconnected ==> r.state == Disconnected
    ensures ClosedAtMostOnce(r)
  {
    CountClosesNone(tail);
    CountClosesAppend(c.trace, tail);
  }

  /** QuietStep for a step whose new effects come in two parts. */
  lemma QuietSteps(c: Connection, r: Connection, a: seq<Effect>, b: seq<Effect>)
    requires ClosedAtMostOnce(c)
    requires r.trace == c.trace + a + b && CloseCb !in a && CloseCb !in b
    requires c.state == Disconnected ==> r.state == Disconnected
    ensures ClosedAtMostOnce(r)
  {
    assert r.trace == c.trace + (a + b);
    QuietStep(c, r, a + b);
  }

  /** A step that runs the close sequence from a Closable state. */
  lemma ClosingStep(c: Connection, r: Connection)
    requires ClosedAtMostOnce(c) && Closable(c.state)
    requires r.trace == c.trace + [DisableAll, ConnCb, CloseCb] && r.state == Disconnected
    ensures ClosedAtMostOnce(r)
  {
    assert CountCloses([DisableAll, ConnCb, CloseCb]) == 1 by {
      assert [DisableAll, ConnCb, CloseCb][..2] == [DisableAll, ConnCb];
      CountClosesNone([DisableAll, ConnCb]);
    }
    CountClosesAppend(c.trace, [DisableAll, ConnCb, CloseCb]);
  }

  /** A send adds scheduled notices only, never the close callback. */
  lemma SendClosesAtMostOnce(c: Connection, data: seq<byte>, res: WriteResult)
    requires WellFormed(c) && ClosedAtMostOnce(c)
    requires res.Wrote? ==> res.n <= |data|
    ensures ClosedAtMostOnce(Send(c, data, res))
  {
    var r := Send(c, data, res);
    if c.state == Connected {
      var done :=
        if CanWriteDirectly(c) && res.Wrote? && res.n == |data| && c.hasWriteCompleteCallback
        then [WriteComplete] else [];
      QuietSteps(c, r, done, HighWaterNotice(c, ReadableBytes(c.output), ReadableBytes(r.output)));
    }
  }

  /** A write-readiness event adds at most the write-complete notice and the
      deferred half-close, never the close callback. */
  lemma WriteClosesAtMostOnce(c: Connection, n: int)
    requires WellFormed(c) && ClosedAtMostOnce(c)
    requires c.writing ==> n <= ReadableBytes(c.output)
    ensures ClosedAtMostOnce(HandleWrite(c, n))
  {
    var r := HandleWrite(c, n);
    var done := if Drains(c, n) && c.hasWriteCompleteCallback then [WriteComplete] else [];
    var half := if Drains(c, n) && c.state == Disconnecting then [ShutdownWrite] else [];
    QuietSteps(c, r, done, half);
  }

  /** Every step keeps the close callback single-fire. */
  lemma StepClosesAtMostOnce(c: Connection, e: Event)
    requires WellFormed(c) && Enabled(c, e) && ClosedAtMostOnce(c)
    ensures ClosedAtMostOnce(Step(c, e))
  {
    match e
    case SendEv(data, res) =>
      SendClosesAtMostOnce(c, data, res);
    case ShutdownEv =>
      QuietStep(c, Shutdown(c), if c.state == Connected && !c.writing then [ShutdownWrite] else []);
    case ForceCloseEv =>
      QuietStep(c, ForceClose(c), []);
    case ForceCloseTask =>
      if Closable(c.state) { ClosingStep(c, ForceCloseInLoop(c)); } else { QuietStep(c, ForceCloseInLoop(c), []); }
    case StartReadEv =>
      QuietStep(c, StartReadGuarded(c), []);
    case StopReadEv =>
      QuietStep(c, StopReadInLoop(c), []);
    case EstablishedEv =>
      QuietStep(c, ConnectEstablished(c), [ConnCb]);
    case DestroyedEv =>
      if c.state == Connected {
        QuietStep(c, ConnectDestroyed(c), [DisableAll, ConnCb]);
      } else {
        QuietStep(c, ConnectDestroyed(c), []);
      }
    case WriteReady(n) =>
      WriteClosesAtMostOnce(c, n);
    case ReadReady(n, incoming) =>
      var r := HandleRead(c, n, incoming);
      if n > 0 { QuietStep(c, r, [MessageCb]); }
      else if n == 0 { ClosingStep(c, r); }
      else { QuietStep(c, r, [ErrorReported]); }
    case HangUpEv =>
      ClosingStep(c, HandleClose(c));
    case ErrorEv =>
      QuietStep(c, HandleError(c), [ErrorReported]);
  }

  /** The channel has an interest only while the connection is live. */
  predicate OpenInterest(c: Connection) {
    c.readInterest || c.writing ==> Closable(c.state)
  }

  /** Every step keeps channel interest confined to live connections. The
      step that re-arms reading is StartReadGuarded; the unguarded
      startReadInLoop breaks this (StartReadAfterCloseRearms). */
  lemma StepKeepsOpenInterest(c: Connection, e: Event)
    requires WellFormed(c) && Enabled(c, e) && OpenInterest(c)
    ensures OpenInterest(Step(c, e))
  {
  }

  lemma {:induction false} RunKeepsOpenInterest(c: Connection, es: seq<Event>)
    requires WellFormed(c) && RunEnabled(c, es) && OpenInterest(c)
    ensures OpenInterest(Run(c, es))
    decreases |es|
  {
    if |es| > 0 {
      StepKeepsOpenInterest(c, es[0]);
      RunKeepsOpenInterest(Step(c, es[0]), es[1..]);
    }
  }

  /** Whatever the channel can deliver is enabled: a read while read
      interest is on (with an answer consistent with its bytes), and a
      hang-up while any interest is on. The Closable conjuncts of Enabled
      exclude no run the channel can produce. */
  lemma ChannelEventsEnabled(c: Connection, n: int, incoming: seq<byte>)
    requires WellFormed(c) && OpenInterest(c)
    ensures c.readInterest && (n > 0 ==> |incoming| == n) ==> Enabled(c, ReadReady(n, incoming))
    ensures c.readInterest || c.writing ==> Enabled(c, HangUpEv)
  {
  }

  /** From construction, channel interest stays confined to live connections
      over every run. */
  lemma OpenInterestAlways(hasWriteComplete: bool, hasHighWater: bool, es: seq<Event>)
    requires RunEnabled(NewConnection(hasWriteComplete, hasHighWater), es)
    ensures OpenInterest(Run(NewConnection(hasWriteComplete, hasHighWater), es))
  {
    RunKeepsOpenInterest(NewConnection(hasWriteComplete, hasHighWater), es);
  }

  /** startReadInLoop AS WRITTEN checks no state: after the peer closed the
      connection, it re-arms read interest on a Disconnected connection
      whose close callback already ran, so the next zero-length read reaches
      handleClose in Disconnected, a state neither the written assert nor
      the intended one admits. The guarded version leaves it closed. */
  lemma StartReadAfterCloseRearms(hasWriteComplete: bool, hasHighWater: bool)
    ensures var d := HandleRead(ConnectEstablished(NewConnection(hasWriteComplete, hasHighWater)), 0, []);
            && CountCloses(d.trace) == 1
            && StartReadInLoop(d).state == Disconnected
            && StartReadInLoop(d).readInterest
            && !OpenInterest(StartReadInLoop(d))
            && !Closable(StartReadInLoop(d).state)
            && !(StartReadInLoop(d).state == Connected || StartReadInLoop(d).state == Connecting)
            && StartReadGuarded(d) == d
            && !d.readInterest
  {
    var d := HandleRead(ConnectEstablished(NewConnection(hasWriteComplete, hasHighWater)), 0, []);
    var closing: seq<Effect> := [DisableAll, ConnCb, CloseCb];
    assert d.trace == [ConnCb] + closing;
    assert CountCloses(closing) == 1 by {
      assert closing[..2] == [DisableAll, ConnCb];
      CountClosesNone([DisableAll, ConnCb]);
    }
    CountClosesNone([ConnCb]);
    CountClosesAppend([ConnCb], closing);
  }

  /** forceCloseWithDelay followed by its timer: after the delay the timer
      calls forceClose (lines 225-227), which queues forceCloseInLoop
      (line 215), which runs handleClose (lines 234-237). A Connected or
      Disconnecting connection therefore ends Disconnected with the close
      sequence run once, and handleClose is reached in Disconnecting, a
      state the written assert at line 380 rejects. Any other state arms no
      timer and is left unchanged. */
  lemma DelayedForceCloseCloses(c: Connection)
    ensures var t := ForceClose(ForceCloseWithDelay(c));
            Closable(c.state) ==>
              t.state == Disconnecting && !(t.state == Connected || t.state == Connecting)
    ensures var d := ForceCloseInLoop(ForceClose(ForceCloseWithDelay(c)));
            Closable(c.state) ==>
              && d == c.(state := Disconnected, writing := false, readInterest := false, trace := d.trace)
              && d.trace == c.trace + [DisableAll, ConnCb, CloseCb]
    ensures !Closable(c.state) ==> ForceCloseInLoop(ForceClose(ForceCloseWithDelay(c))) == c
  {
  }

  /** Single-fire close over any run of the corrected step relation: however
      zero-length reads, force-closes and shutdowns interleave, the close
      callback runs at most once. */
  lemma {:induction false} RunClosesAtMostOnce(c: Connection, es: seq<Event>)
    requires WellFormed(c) && RunEnabled(c, es) && ClosedAtMostOnce(c)
    ensures ClosedAtMostOnce(Run(c, es))
    decreases |es|
  {
    if |es| > 0 {
      StepClosesAtMostOnce(c, es[0]);
      RunClosesAtMostOnce(Step(c, es[0]), es[1..]);
    }
  }

  /** From construction, every run invokes the close callback at most once. */
  lemma CloseCallbackAtMostOnce(hasWriteComplete: bool, hasHighWater: bool, es: seq<Event>)
    requires RunEnabled(NewConnection(hasWriteComplete, hasHighWater), es)
    ensures CountCloses(Run(NewConnection(hasWriteComplete, hasHighWater), es).trace) <= 1
  {
    RunClosesAtMostOnce(NewConnection(hasWriteComplete, hasHighWater), es);
  }

  /** A second forceCloseInLoop, or one after the peer's zero-length read,
      adds nothing. */
  lemma CloseIsIdempotent(c: Connection)
    requires WellFormed(c) && Closable(c.state)
    ensures ForceCloseInLoop(ForceCloseInLoop(c)) == ForceCloseInLoop(c)
    ensures ForceCloseInLoop(HandleRead(c, 0, [])) == HandleRead(c, 0, [])
  {
  }

  /** A send to a queue already at or above the mark schedules no
      high-water notice and leaves the queue at or above the mark. */
  lemma SendAboveMarkQuiet(c: Connection, data: seq<byte>, res: WriteResult)
    requires WellFormed(c) && ReadableBytes(c.output) >= c.highWaterMark
    requires res.Wrote? ==> res.n <= |data|
    ensures ReadableBytes(Send(c, data, res).output) >= c.highWaterMark
    ensures Send(c, data, res).highWaterMark == c.highWaterMark
    ensures var t := Send(c, data, res).trace;
            c.trace <= t && forall i | |c.trace| <= i < |t| :: !t[i].HighWater?
  {
  }

  /** The assignment at line 192 breaks single-fire close: after the close
      sequence, the as-written shutdown puts the connection back in
      Disconnecting, so a force-close runs the close callback a second time.
      The intended shutdown leaves the closed connection alone, and the
      force-close then adds nothing. */
  lemma ShutdownAsWrittenClosesTwice(c: Connection)
    requires Closable(c.state) && CountCloses(c.trace) == 0
    ensures CountCloses(ForceCloseInLoop(ForceClose(ShutdownAsWritten(HandleClose(c)))).trace) == 2
    ensures WellFormed(c) ==> ForceCloseInLoop(ForceClose(Shutdown(HandleClose(c)))) == HandleClose(c)
  {
    var closing: seq<Effect> := [DisableAll, ConnCb, CloseCb];
    assert CountCloses(closing) == 1 by {
      assert closing[..2] == [DisableAll, ConnCb];
      CountClosesNone([DisableAll, ConnCb]);
    }
    CountClosesNone([ShutdownWrite]);
    var t1 := c.trace + closing;
    var t2 := t1 + [ShutdownWrite];
    CountClosesAppend(c.trace, closing);
    CountClosesAppend(t1, [ShutdownWrite]);
    CountClosesAppend(t2, closing);
    assert ForceCloseInLoop(ForceClose(ShutdownAsWritten(HandleClose(c)))).trace == t2 + closing;
  }

  /** While the queue is at or above the mark, sends never schedule the
      high-water-mark callback again: the queue only grows under sends. */
  lemma {:induction false} NoHighWaterWhileAbove(c: Connection, es: seq<Event>)
    requires WellFormed(c) && RunEnabled(c, es)
    requires forall i :: 0 <= i < |es| ==> es[i].SendEv?
    requires ReadableBytes(c.output) >= c.highWaterMark
    ensures var t := Run(c, es).trace;
            c.trace <= t && forall i | |c.trace| <= i < |t| :: !t[i].HighWater?
    decreases |es|
  {
    if |es| > 0 {
      var e := es[0];
      assert e.SendEv?;
      SendAboveMarkQuiet(c, e.data, e.result);
      var c1 := Step(c, e);
      assert forall i :: 0 <= i < |es[1..]| ==> es[1..][i].SendEv?;
      NoHighWaterWhileAbove(c1, es[1..]);
      assert Run(c1, es[1..]) == Run(c, es);
    }
  }

  /** A send that lifts a non-empty queue from below a mark of 100 bytes by
      150 bytes schedules the callback once, with the new queue size. */
  lemma HighWaterCrossingScenario(c: Connection, data: seq<byte>, res: WriteResult)
    requires WellFormed(c) && c.state == Connected
    requires c.highWaterMark == 100 && c.hasHighWaterMarkCallback
    requires 0 < ReadableBytes(c.output) < 100 && |data| == 150
    requires res.Wrote? ==> res.n <= |data|
    ensures Send(c, data, res).trace == c.trace + [HighWater(ReadableBytes(c.output) + 150)]
  {
  }

  /** shutdown() with output pending defers the half-close; the write that
      drains the queue completes it, and the connection stays Disconnecting
      rather than jumping to Disconnected. */
  lemma ShutdownWaitsForDrain(c: Connection)
    requires WellFormed(c) && c.state == Connected && c.writing
    requires ReadableBytes(c.output) > 0
    ensures Shutdown(c).trace == c.trace
    ensures Shutdown(c).state == Disconnecting
    ensures var d := Shutdown(c);
            var n := ReadableBytes(d.output);
            && HandleWrite(d, n).trace[|HandleWrite(d, n).trace| - 1] == ShutdownWrite
            && !HandleWrite(d, n).writing
            && HandleWrite(d, n).state == Disconnecting
  {
  }

  /** A read followed by the default message callback leaves nothing unread. */
  lemma DefaultCallbackDrainsInput(c: Connection, n: int, incoming: seq<byte>)
    requires WellFormed(c) && n > 0 && |incoming| == n
    ensures ReadableBytes(DefaultMessageCallback(HandleRead(c, n, incoming).input)) == 0
    ensures HandleRead(c, n, incoming).trace == c.trace + [MessageCb]
  {
  }
}
